=== FILE: README.md ===
# Aliyun ECS request signing, modelled in Dafny

`Aliyun::ECS` (`lib/aliyun/ecs.rb`) is a small Ruby client for the Aliyun
ECS control-plane API. Any method called on a client that the class does not
define goes to `method_missing`. It turns a snake_case identifier such as
`describe_instances` into a remote action name such as `DescribeInstances`.
It then merges configured default parameters, the caller's parameters and
four generated fields into one map. It signs the map with HMAC-SHA1 over a
canonical, percent-encoded string-to-sign, adds the result as `Signature`,
and sends one HTTP request. If the server answers with an HTTP error (a
`RestClient::Exception`, line 30), the parameters are echoed in the error
with the `AccessKeyId` removed. Any other failure in the transport is
reported by its message alone. A `nil` default-parameter map, request
method or secret fails while the parameters are built (line 26), before the
`begin`, and is not wrapped in an `AliyunError`. A `nil` access key id is
signed as empty text. A `nil` endpoint fails inside the transport, and lines
32-33 report it.

This project models that signing and dispatch core as pure functions over
byte strings (`seq<byte>`) and proves what the code promises:

- **`Percent`** models `percent_encode`: the composition of
  `URI.encode_www_form_component` and the three substitutions, byte for
  byte. It is proved equal to an independent reference, the percent-encoding
  of RFC 3986 (section 2.1), which leaves only the unreserved characters of
  section 2.3 literal. A strict decoder is proved to be its exact inverse.
- **`ByteOrder`** models the byte-wise order in which Ruby sorts the
  parameter keys. It is proved a strict total order. `SortedKeys` lists a
  key set in that order.
- **`Canonical`** models the canonical query string. The loop of
  `compute_signature` is a method with loop invariants: it prefixes each
  entry with `&` and then drops the first byte. It is proved equal to
  joining the sorted entries with `&`. A reference query-string parser
  recovers the parameter map from it, so distinct maps never share a
  canonical string.
- **`Signer`** models the string-to-sign `METHOD&%2F&enc(query)`, the
  signing key `secret&`, and the signature with Base64's newlines removed.
- **`ActionName`** models the identifier resolution of `method_missing`. It
  is proved equal to a direct reference definition, `Camel`.
- **`Config`** models the precedence rules of `initialize` on the shared
  `Aliyun[...]` store. The store is passed as a value.
- **`RequestParams`** models `build_request_parameters`, including the
  failures raised when the default parameters, the request method or the
  secret is `nil`.
- **`Client`** models dispatch, from identifier to the request that would be
  sent, and the redaction of the parameters echoed in an error.

`Wrappers` (`Option`, `Result`) and `ByteStrings` (counting, joining,
splitting, and a model of Ruby's literal `gsub`) are shared helpers.

Modelling decisions:

- Strings are byte sequences. Keys are their textual form: the source's
  `to_sym`/`to_s` round trip leaves the text unchanged.
- HMAC-SHA1 and Base64 are function values in a `Primitives` record. They
  stay uninterpreted, so every property holds for any implementation of
  them.
- The nonce (`SecureRandom.uuid`) and the timestamp (`Time.now`) are inputs.
- Ruby `nil` is `None`.

## Model

| member | source | states |
|---|---|---|
| Percent.PercentEncode | lib/aliyun/ecs.rb:71-73 | form encoding followed by `+`→`%20`, `*`→`%2A` and `%7E`→`~` equals RFC 3986 percent-encoding; every output byte is unreserved or `%` |
| Percent.EncodeByte | lib/aliyun/ecs.rb:72 | an unreserved byte stands for itself; any other byte becomes `%` and two upper-case hex digits whose value is the byte |
| Percent.DecodeIff | lib/aliyun/ecs.rb:71-73 | the strict decoder accepts `s` with result `v` exactly when `percent_encode(v) == s` |
| Percent.DecodeEncode | lib/aliyun/ecs.rb:71-73 | decoding an encoded value gives the value back |
| Percent.EncodeDecode | lib/aliyun/ecs.rb:71-73 | any text the decoder accepts is the encoding of what it decodes to |
| Percent.EncodeInjective | lib/aliyun/ecs.rb:71-73 | distinct values never share an encoding |
| Percent.EncodedHasNoSeparators | lib/aliyun/ecs.rb:71-73 | an encoded value holds no `&`, `=`, `+` or space, so it cannot break the query structure |
| Percent.EncodeSpace | lib/aliyun/ecs.rb:72 | a space encodes to `%20`, not `+` |
| Percent.EncodeStar | lib/aliyun/ecs.rb:72 | `*` encodes to `%2A` |
| Percent.EncodeTilde | lib/aliyun/ecs.rb:72 | `~` stays literal |
| Percent.EncodeSlash | lib/aliyun/ecs.rb:60 | the root path `/` encodes to `%2F` |
| ByteOrder.LessTotal | lib/aliyun/ecs.rb:51 | any two distinct keys are ordered one way or the other |
| ByteOrder.LessTransitive | lib/aliyun/ecs.rb:51 | the key order is transitive |
| ByteOrder.LessAsymmetric | lib/aliyun/ecs.rb:51 | no two keys precede each other |
| ByteOrder.SortedKeys | lib/aliyun/ecs.rb:51 | the keys of the map, each exactly once, in strictly ascending byte-wise order |
| Canonical.Entry | lib/aliyun/ecs.rb:55-57 | an entry `enc(k)=enc(v)` is non-empty and holds no `&` |
| Canonical.CanonicalizedQueryString | lib/aliyun/ecs.rb:50-60 | the `&`-prefix-then-drop-first loop yields the sorted entries joined by `&`, and empty text for an empty map |
| Canonical.CanonicalQueryRoundTrip | lib/aliyun/ecs.rb:50-59 | parsing the canonical query string recovers exactly the parameter map |
| Canonical.CanonicalQueryShape | lib/aliyun/ecs.rb:51-59 | the pieces between `&` are the entries in strictly ascending key order; no leading `&`; exactly one `&` fewer than parameters |
| Canonical.CanonicalQueryInjective | lib/aliyun/ecs.rb:50-59 | two maps share a canonical query string if and only if they are equal |
| Signer.StringToSign | lib/aliyun/ecs.rb:60 | the string-to-sign is the method, `&%2F&`, then text that decodes to the canonical query string; it has exactly two `&` more than the method |
| Signer.StringToSignInjective | lib/aliyun/ecs.rb:49-60 | for one HTTP method, two maps share a string-to-sign if and only if they are equal |
| Signer.CalculateSignature | lib/aliyun/ecs.rb:64-69 | the signature is the Base64 text with every newline removed and the other bytes kept in their order; its length is the Base64 length less the number of newlines |
| Signer.ComputeSignature | lib/aliyun/ecs.rb:49-62 | the signature is HMAC-SHA1 keyed with `secret&` over the string-to-sign of the map, Base64-encoded with every newline removed in order; it holds no newline |
| Signer.StringToSignEmpty | lib/aliyun/ecs.rb:59-60 | with no parameters the string-to-sign is `METHOD&%2F&`: the `nil` slice reads as empty text |
| ByteStrings.GsubDeletes | lib/aliyun/ecs.rb:67 | deleting a byte with `gsub` equals filtering it out: every other byte stays, in order; none of the deleted byte is left, and the text shortens by the number removed |
| ActionName.Resolve | lib/aliyun/ecs.rb:18-20 | an identifier is declined exactly when it contains an upper-case ASCII letter; otherwise the action is `Camel(identifier)` |
| ActionName.ResolveShape | lib/aliyun/ecs.rb:20 | a resolved action has no `_`, and lower-casing it gives the identifier with its underscores removed |
| ActionName.CamelKeepsLetters | lib/aliyun/ecs.rb:20 | only case changes: lower-casing `Camel(s)` gives `s` without underscores |
| ActionName.ResolveTwoWords | lib/aliyun/ecs.rb:20 | `a…_b…` resolves to `A…B…` |
| ActionName.ResolveDescribeInstances | lib/aliyun/ecs.rb:18-21 | `describe_instances` resolves to `DescribeInstances` |
| ActionName.ResolveDeclinesCamelCase | lib/aliyun/ecs.rb:19 | `DescribeInstances` is declined |
| Config.Initialize | lib/aliyun/ecs.rb:12-16 | a credential comes from the option, else the store, else the environment; the endpoint is the stored one if present, else the option; nothing else changes |
| Config.EndpointFirstWins | lib/aliyun/ecs.rb:15 | after several constructions the endpoint is the stored one, or else the one from the first construction that supplied an endpoint |
| Config.CredentialsPersist | lib/aliyun/ecs.rb:13-14 | a stored credential is never reset to `nil` by later constructions |
| Config.LastCredentialWins | lib/aliyun/ecs.rb:13 | the last construction that passes an access key id decides it, whatever constructions without one follow |
| RequestParams.Generated | lib/aliyun/ecs.rb:39-44 | the generated fields are exactly `AccessKeyId`, `Action`, `SignatureNonce`, `TimeStamp` with the given values; a `nil` key id reads as empty |
| RequestParams.Merge | lib/aliyun/ecs.rb:38-44 | the merged key set is the union; generated fields override caller parameters, which override defaults |
| RequestParams.Build | lib/aliyun/ecs.rb:37-47 | fails exactly when the defaults, the request method or the secret is `nil`, in that order of evaluation; on success the keys are the merged keys plus `Signature`, the signature is computed over the merged map, and no other entry changes |
| RequestParams.BuildFields | lib/aliyun/ecs.rb:37-46 | each generated field has its generated value; caller entries beat defaults except on generated keys; the signature has no newline |
| RequestParams.SignatureCoversOtherFields | lib/aliyun/ecs.rb:45 | without a pre-supplied `Signature`, the signature is computed over exactly the other fields of the built map |
| Client.Dispatch | lib/aliyun/ecs.rb:18-28 | an identifier is not handled exactly when it has an upper-case letter; otherwise a build failure is passed on, or the request goes to the stored endpoint with the lower-cased method and the built parameters |
| Client.MissingKeyIdAndEndpointStillSend | lib/aliyun/ecs.rb:26-28 | a store without an access key id or endpoint still yields a request: the key id is sent as empty text and the URL stays `nil` for the transport to reject |
| Client.DispatchedAction | lib/aliyun/ecs.rb:18-26 | a dispatched request names the camel-cased action, with no `_`, and carries a newline-free signature |
| Client.Redact | lib/aliyun/ecs.rb:31 | the echoed parameters are the sent ones without `AccessKeyId` |
| Client.RedactRestore | lib/aliyun/ecs.rb:31 | redaction loses only the access key id: putting it back restores the sent map |
| Client.RedactedReport | lib/aliyun/ecs.rb:31 | the echoed parameters of a dispatched request omit the key id but keep the action, nonce, timestamp and signature |

## Left out

- Transport (`RestClient.send`, TLS verification), `JSON.parse` of the response, and the status-code check of lines 28-29 are left out. They are I/O and a foreign library. Dispatch ends at the `Request` that would be sent.
- The error message text of lines 31-33 is left out. It depends on the response body and on Ruby's `Hash#inspect` format. Only the redaction of the echoed parameters is modelled.
- HMAC-SHA1 and Base64 are left uninterpreted: they are library code. Only the newline strip of line 67 and the `secret&` key of line 61 are modelled.
- `SecureRandom.uuid` and `Time.now.utc.iso8601` are left out. They are randomness and a clock; the nonce and timestamp are parameters of `RequestParams.Build`.
- The `super` call of line 19 becomes `Client.NotHandled`. The inherited `method_missing` only raises `NoMethodError`.
- Concurrent use of the process-wide `Aliyun[...]` store is left out. The store is an explicit value, and races between threads are not modelled.
- How `request_method` and `request_parameters` are set is left out. That code is outside this file; the model reads them from the store.
- Symbol and string keys are not distinguished: a key is its text everywhere in the model. The source identifies the two forms only while signing: line 50 converts every key to a symbol, and line 55 converts it back to its text. The map that lines 38-46 build and send keeps both forms as separate entries.
- RequestParams.Merge: a caller's string key such as `"Action"` is a separate entry in the source and is sent beside the generated `:Action`. The model treats it as the same key, so the generated value overrides it.
- Client.Redact: line 31 removes only the symbol key `:AccessKeyId`. A string key `"AccessKeyId"` from the defaults or the caller would still be echoed in the source. The model removes every key with that text.
- Values are byte strings. Ruby would call `to_s` on other value types, which is not modelled.
- ActionName.Resolve is ASCII-only. Upper- and lower-casing outside ASCII (Ruby's Unicode `capitalize`) is not modelled; the `/[A-Z]/` test is ASCII-only in the source too.
- Multi-byte characters are handled as their bytes. `encode_www_form_component` escapes each byte of a non-ASCII character separately, so this is what the source does.

Two behaviours of the code that are easy to miss:

- No parameter key is renamed: a caller key `region_id` is sent as `region_id`.
- A `Signature` in the defaults or the caller's parameters is signed and then overwritten (`RequestParams.Build`). When neither supplies one, `RequestParams.SignatureCoversOtherFields` shows that the signature covers exactly the other fields.

=== FILE: action_name.dfy ===
/** The action-name resolution of `method_missing` in `lib/aliyun/ecs.rb`:
    a snake_case identifier becomes a CamelCase remote action name, and an
    identifier with an upper-case letter is declined. */
module ActionName {
  import opened Wrappers
  import opened ByteStrings

  function Upcase(b: byte): byte {
    if IsLower(b) then b - 32 else b
  }

  function Downcase(b: byte): byte {
    if IsUpper(b) then b + 32 else b
  }

  function DowncaseAll(s: Bytes): Bytes {
    seq(|s|, i requires 0 <= i < |s| => Downcase(s[i]))
  }

  /** The regular expression `/[A-Z]/` matches somewhere in `s`. */
  predicate HasUpper(s: Bytes) {
    exists i | 0 <= i < |s| :: IsUpper(s[i])
  }

  /** Ruby's `String#capitalize`: the first byte upper-cased, the rest
      lower-cased. */
  function Capitalize(w: Bytes): Bytes {
    if |w| == 0 then [] else [Upcase(w[0])] + DowncaseAll(w[1..])
  }

  function CapitalizeAll(ws: seq<Bytes>): seq<Bytes> {
    seq(|ws|, i requires 0 <= i < |ws| => Capitalize(ws[i]))
  }

  /** Ruby's `Array#join('')`. */
  function ConcatAll(ws: seq<Bytes>): Bytes {
    if |ws| == 0 then [] else ws[0] + ConcatAll(ws[1..])
  }

  /** Ruby's `String#split(sep)` with a one-byte separator: the fields
      between separators, trailing empty fields removed. */
  function RubySplit(s: Bytes, sep: byte): seq<Bytes> {
    DropTrailingEmpty(SplitOn(s, sep))
  }

  function DropTrailingEmpty(ws: seq<Bytes>): seq<Bytes> {
    if |ws| > 0 && ws[|ws| - 1] == [] then DropTrailingEmpty(ws[..|ws| - 1]) else ws
  }

  /** Lines 19-20: decline an identifier that contains `A-Z`; otherwise
      split on `_`, capitalize every segment, join, and remove any `_`. */
  function Resolve(identifier: Bytes): (r: Option<Bytes>)
    ensures r.None? <==> HasUpper(identifier)
    ensures r.Some? ==> r.value == Camel(identifier)
  {
    if HasUpper(identifier) then None
    else
      var joined := ConcatAll(CapitalizeAll(RubySplit(identifier, UNDERSCORE)));
      SplitCapitalizeJoin(identifier);
      CamelHasNoUnderscore(identifier, true);
      GsubAbsent(joined, [UNDERSCORE], []);
      Some(Gsub(joined, [UNDERSCORE], []))
  }

  // ---------------------------------------------------------------------
  // The reference: one pass over the identifier.

  /** Every `_` dropped; the first byte, and each byte right after a `_`,
      upper-cased; everything else kept in order. */
  function Camel(s: Bytes): Bytes {
    CamelFrom(s, true)
  }

  function CamelFrom(s: Bytes, atStart: bool): Bytes {
    if |s| == 0 then []
    else if s[0] == UNDERSCORE then CamelFrom(s[1..], true)
    else [if atStart then Upcase(s[0]) else s[0]] + CamelFrom(s[1..], false)
  }

  lemma {:induction false} CamelHasNoUnderscore(s: Bytes, atStart: bool)
    ensures UNDERSCORE !in CamelFrom(s, atStart)
  {
    if |s| > 0 {
      CamelHasNoUnderscore(s[1..], s[0] == UNDERSCORE);
    }
  }

  /** Lower-casing the action name gives back the identifier without its
      underscores: only case changes, and nothing else is reordered, added
      or lost. */
  lemma {:induction false} CamelKeepsLetters(s: Bytes, atStart: bool)
    requires !HasUpper(s)
    ensures DowncaseAll(CamelFrom(s, atStart)) == Gsub(s, [UNDERSCORE], [])
  {
    if |s| > 0 {
      var t := s[1..];
      NoUpperSlice(s, 1, |s|);
      assert s[1..|s|] == t;
      CamelKeepsLetters(t, s[0] == UNDERSCORE);
      if s[0] == UNDERSCORE {
        assert s[..1] == [UNDERSCORE];
      } else {
        assert !IsUpper(s[0]);
        DowncaseCons(if atStart then Upcase(s[0]) else s[0], CamelFrom(t, false));
        assert s == [s[0]] + t;
        GsubCons(s[0], t, [UNDERSCORE], []);
      }
    }
  }

  lemma DowncaseCons(b: byte, s: Bytes)
    ensures DowncaseAll([b] + s) == [Downcase(b)] + DowncaseAll(s)
  {
  }

  lemma {:induction false} CamelAcrossUnderscore(x: Bytes, y: Bytes, atStart: bool)
    ensures CamelFrom(x + [UNDERSCORE] + y, atStart) == CamelFrom(x, atStart) + CamelFrom(y, true)
  {
    if |x| == 0 {
      assert (x + [UNDERSCORE] + y)[1..] == y;
    } else {
      assert (x + [UNDERSCORE] + y)[1..] == x[1..] + [UNDERSCORE] + y;
      CamelAcrossUnderscore(x[1..], y, x[0] == UNDERSCORE);
    }
  }

  /** Without `_` and upper-case letters, the rest of a word is copied. */
  lemma {:induction false} CamelPlain(w: Bytes)
    requires UNDERSCORE !in w
    ensures CamelFrom(w, false) == w
  {
    if |w| > 0 {
      CamelPlain(w[1..]);
    }
  }

  lemma CamelWord(w: Bytes)
    requires UNDERSCORE !in w && !HasUpper(w)
    ensures CamelFrom(w, true) == Capitalize(w)
  {
    if |w| > 0 {
      CamelPlain(w[1..]);
      assert DowncaseAll(w[1..]) == w[1..] by {
        forall i | 0 <= i < |w| - 1
          ensures Downcase(w[1..][i]) == w[1..][i]
        {
          assert !IsUpper(w[i + 1]);
        }
      }
    }
  }

  lemma {:induction false} ConcatCapitalizeSplit(s: Bytes)
    requires !HasUpper(s)
    ensures ConcatAll(CapitalizeAll(SplitOn(s, UNDERSCORE))) == CamelFrom(s, true)
    decreases |s|
  {
    match IndexOf(s, UNDERSCORE)
    case None =>
      CamelWord(s);
      assert CapitalizeAll([s]) == [Capitalize(s)];
    case Some(i) =>
      var x, y := s[..i], s[i + 1..];
      assert s == x + [UNDERSCORE] + y;
      NoUpperSlice(s, 0, i);
      NoUpperSlice(s, i + 1, |s|);
      assert s[i + 1..|s|] == y;
      ConcatCapitalizeSplit(y);
      CamelWord(x);
      CamelAcrossUnderscore(x, y, true);
      ConcatCapitalizeCons(x, SplitOn(y, UNDERSCORE));
  }

  lemma NoUpperSlice(s: Bytes, lo: nat, hi: nat)
    requires lo <= hi <= |s| && !HasUpper(s)
    ensures !HasUpper(s[lo..hi])
  {
    forall j | 0 <= j < hi - lo
      ensures !IsUpper(s[lo..hi][j])
    {
      assert s[lo..hi][j] == s[lo + j];
    }
  }

  lemma ConcatCapitalizeCons(x: Bytes, ws: seq<Bytes>)
    ensures ConcatAll(CapitalizeAll([x] + ws)) == Capitalize(x) + ConcatAll(CapitalizeAll(ws))
  {
    assert CapitalizeAll([x] + ws) == [Capitalize(x)] + CapitalizeAll(ws);
    assert ([Capitalize(x)] + CapitalizeAll(ws))[1..] == CapitalizeAll(ws);
  }

  /** Dropping trailing empty segments does not change the joined result. */
  lemma {:induction false} DropTrailingEmptyJoin(ws: seq<Bytes>)
    ensures ConcatAll(CapitalizeAll(DropTrailingEmpty(ws))) == ConcatAll(CapitalizeAll(ws))
    decreases |ws|
  {
    if |ws| > 0 && ws[|ws| - 1] == [] {
      var init := ws[..|ws| - 1];
      DropTrailingEmptyJoin(init);
      assert ws == init + [[]];
      assert CapitalizeAll(ws) == CapitalizeAll(init) + [[]];
      ConcatAllSnoc(CapitalizeAll(init), []);
    }
  }

  lemma {:induction false} ConcatAllSnoc(ws: seq<Bytes>, w: Bytes)
    ensures ConcatAll(ws + [w]) == ConcatAll(ws) + w
  {
    if |ws| == 0 {
      assert ConcatAll([w]) == w + ConcatAll([]);
    } else {
      assert (ws + [w])[1..] == ws[1..] + [w];
      ConcatAllSnoc(ws[1..], w);
    }
  }

  lemma SplitCapitalizeJoin(s: Bytes)
    requires !HasUpper(s)
    ensures ConcatAll(CapitalizeAll(RubySplit(s, UNDERSCORE))) == Camel(s)
  {
    DropTrailingEmptyJoin(SplitOn(s, UNDERSCORE));
    ConcatCapitalizeSplit(s);
  }

  /** The resolved name has no `_` and, lower-cased, is the identifier
      without its underscores. */
  lemma ResolveShape(identifier: Bytes)
    requires !HasUpper(identifier)
    ensures Resolve(identifier).Some?
    ensures UNDERSCORE !in Resolve(identifier).value
    ensures DowncaseAll(Resolve(identifier).value) == Gsub(identifier, [UNDERSCORE], [])
  {
    CamelHasNoUnderscore(identifier, true);
    CamelKeepsLetters(identifier, true);
  }

  /** A word's first byte is upper-cased and the rest copied. */
  lemma CamelWordHead(c: byte, w: Bytes)
    requires c != UNDERSCORE && UNDERSCORE !in w
    ensures CamelFrom([c] + w, true) == [Upcase(c)] + w
  {
    assert ([c] + w)[1..] == w;
    CamelPlain(w);
  }

  /** `a_b` resolves to `AB`, each word capitalized. */
  lemma ResolveTwoWords(c1: byte, w1: Bytes, c2: byte, w2: Bytes)
    requires IsLower(c1) && IsLower(c2)
    requires UNDERSCORE !in w1 && UNDERSCORE !in w2 && !HasUpper(w1) && !HasUpper(w2)
    ensures Resolve([c1] + w1 + [UNDERSCORE] + [c2] + w2)
         == Some([Upcase(c1)] + w1 + [Upcase(c2)] + w2)
  {
    var x, y := [c1] + w1, [c2] + w2;
    var id := [c1] + w1 + [UNDERSCORE] + [c2] + w2;
    assert id == x + [UNDERSCORE] + y;
    assert !HasUpper(id) by {
      forall i | 0 <= i < |id|
        ensures !IsUpper(id[i])
      {
        if 1 <= i < 1 + |w1| {
          assert id[i] == w1[i - 1];
        } else if 2 + |w1| < i {
          assert id[i] == w2[i - 3 - |w1|];
        }
      }
    }
    CamelAcrossUnderscore(x, y, true);
    CamelWordHead(c1, w1);
    CamelWordHead(c2, w2);
    assert Camel(id) == [Upcase(c1)] + w1 + ([Upcase(c2)] + w2);
    assert [Upcase(c1)] + w1 + ([Upcase(c2)] + w2) == [Upcase(c1)] + w1 + [Upcase(c2)] + w2;
    assert Resolve(id) == Some(Camel(id));
  }

  lemma DescribeInstancesBytes()
    ensures Ascii("describe_instances") == [100] + Ascii("escribe") + [UNDERSCORE] + [105] + Ascii("nstances")
  {
    AsciiAppend("describe_", "instances");
    AsciiAppend("describe", "_");
    AsciiAppend("d", "escribe");
    AsciiAppend("i", "nstances");
  }

  lemma DescribeInstancesActionBytes()
    ensures Ascii("DescribeInstances") == [Upcase(100)] + Ascii("escribe") + [Upcase(105)] + Ascii("nstances")
  {
    AsciiAppend("Describe", "Instances");
    AsciiAppend("D", "escribe");
    AsciiAppend("I", "nstances");
  }

  lemma ResolveDescribeInstances()
    ensures Resolve(Ascii("describe_instances")) == Some(Ascii("DescribeInstances"))
  {
    DescribeInstancesBytes();
    DescribeInstancesActionBytes();
    assert !HasUpper(Ascii("escribe")) && UNDERSCORE !in Ascii("escribe");
    assert !HasUpper(Ascii("nstances")) && UNDERSCORE !in Ascii("nstances");
    ResolveTwoWords(100, Ascii("escribe"), 105, Ascii("nstances"));
  }

  lemma ResolveDeclinesCamelCase()
    ensures Resolve(Ascii("DescribeInstances")) == None
  {
    assert IsUpper(Ascii("DescribeInstances")[0]);
  }
}

=== FILE: byte_order.dfy ===
/** Ruby's `String#<=>`: byte-wise lexicographic order, a proper prefix
    sorting first. `Array#sort` on the parameter keys uses it. */
module ByteOrder {
  import opened ByteStrings

  /** `a` sorts strictly before `b`. */
  predicate Less(a: Bytes, b: Bytes)
    decreases |a|
  {
    if |b| == 0 then false
    else if |a| == 0 then true
    else if a[0] != b[0] then a[0] < b[0]
    else Less(a[1..], b[1..])
  }

  lemma {:induction false} LessIrreflexive(a: Bytes)
    ensures !Less(a, a)
  {
    if |a| > 0 {
      LessIrreflexive(a[1..]);
    }
  }

  lemma {:induction false} LessAsymmetric(a: Bytes, b: Bytes)
    ensures Less(a, b) ==> !Less(b, a)
  {
    if |a| > 0 && |b| > 0 && a[0] == b[0] {
      LessAsymmetric(a[1..], b[1..]);
    }
  }

  lemma {:induction false} LessTransitive(a: Bytes, b: Bytes, c: Bytes)
    requires Less(a, b) && Less(b, c)
    ensures Less(a, c)
  {
    if |a| > 0 && a[0] == b[0] && b[0] == c[0] {
      LessTransitive(a[1..], b[1..], c[1..]);
    }
  }

  /** Any two distinct byte strings are ordered one way or the other. */
  lemma {:induction false} LessTotal(a: Bytes, b: Bytes)
    ensures a == b || Less(a, b) || Less(b, a)
  {
    if |a| > 0 && |b| > 0 && a[0] == b[0] {
      LessTotal(a[1..], b[1..]);
      if a[1..] == b[1..] {
        assert a == [a[0]] + a[1..] && b == [b[0]] + b[1..];
      }
    }
  }

  /** `k` is the smallest element of `s`. */
  predicate IsLeast(k: Bytes, s: set<Bytes>) {
    k in s && forall j | j in s && j != k :: Less(k, j)
  }

  lemma LeastUnique(s: set<Bytes>)
    ensures forall k, k' | IsLeast(k, s) && IsLeast(k', s) :: k == k'
  {
    forall k, k' | IsLeast(k, s) && IsLeast(k', s)
      ensures k == k'
    {
      LessAsymmetric(k, k');
    }
  }

  /** Every finite non-empty set of byte strings has a least element. */
  lemma {:induction false} LeastExists(s: set<Bytes>)
    requires s != {}
    ensures exists k :: IsLeast(k, s)
    decreases s
  {
    var x :| x in s;
    if s == {x} {
      assert IsLeast(x, s);
    } else {
      LeastExists(s - {x});
      var m :| IsLeast(m, s - {x});
      LessTotal(x, m);
      if Less(x, m) {
        forall j | j in s && j != x
          ensures Less(x, j)
        {
          if j != m {
            LessTransitive(x, m, j);
          }
        }
        assert IsLeast(x, s);
      } else {
        assert IsLeast(m, s);
      }
    }
  }

  function Least(s: set<Bytes>): (k: Bytes)
    requires s != {}
    ensures IsLeast(k, s)
  {
    LeastExists(s);
    LeastUnique(s);
    var k :| IsLeast(k, s);
    k
  }

  predicate StrictlyAscending(ks: seq<Bytes>) {
    forall i, j | 0 <= i < j < |ks| :: Less(ks[i], ks[j])
  }

  /** The elements of `s` in strictly ascending order: Ruby's `keys.sort`
      on a hash, whose keys are distinct. */
  function SortedKeys(s: set<Bytes>): (ks: seq<Bytes>)
    ensures StrictlyAscending(ks)
    ensures forall k :: k in ks <==> k in s
    ensures forall i | 0 <= i < |ks| :: ks[i] in s
    ensures |ks| == |s|
    decreases s
  {
    if s == {} then []
    else
      var m := Least(s);
      var rest := SortedKeys(s - {m});
      assert forall i | 0 <= i < |rest| :: rest[i] in s - {m};
      [m] + rest
  }
}

=== FILE: byte_strings.dfy ===
/** Byte strings and the few sequence operations the signing path is built
    from: counting, searching, joining, splitting and literal substitution. */
module ByteStrings {
  import opened Wrappers

  /** One octet. Ruby strings reach the signer as byte sequences. */
  type byte = b: int | 0 <= b < 256
  type Bytes = seq<byte>

  const NEWLINE: byte := 10
  const SPACE: byte := 32
  const PERCENT: byte := 37
  const AMP: byte := 38
  const STAR: byte := 42
  const PLUS: byte := 43
  const SLASH: byte := 47
  const EQ: byte := 61
  const UNDERSCORE: byte := 95
  const TILDE: byte := 126

  /** ASCII character classes. */
  predicate IsDigit(b: byte) { 48 <= b <= 57 }
  predicate IsUpper(b: byte) { 65 <= b <= 90 }
  predicate IsLower(b: byte) { 97 <= b <= 122 }

  /** The bytes of a literal written in ASCII. */
  function Ascii(s: string): Bytes {
    seq(|s|, i requires 0 <= i < |s| => s[i] as int % 256)
  }

  lemma AsciiAppend(a: string, b: string)
    ensures Ascii(a + b) == Ascii(a) + Ascii(b)
  {
  }

  /** Number of occurrences of `c` in `s`. */
  function Count(s: Bytes, c: byte): nat {
    if |s| == 0 then 0 else (if s[0] == c then 1 else 0) + Count(s[1..], c)
  }

  lemma {:induction false} CountAppend(a: Bytes, b: Bytes, c: byte)
    ensures Count(a + b, c) == Count(a, c) + Count(b, c)
  {
    if |a| == 0 {
      assert a + b == b;
    } else {
      assert (a + b)[1..] == a[1..] + b;
      CountAppend(a[1..], b, c);
    }
  }

  lemma {:induction false} CountAbsent(s: Bytes, c: byte)
    ensures Count(s, c) == 0 <==> c !in s
  {
    if |s| > 0 {
      CountAbsent(s[1..], c);
      assert s == [s[0]] + s[1..];
    }
  }

  /** Position of the first `c` in `s`, if any. */
  function IndexOf(s: Bytes, c: byte): (r: Option<nat>)
    ensures r.None? <==> c !in s
    ensures r.Some? ==> r.value < |s| && s[r.value] == c && c !in s[..r.value]
  {
    if |s| == 0 then None
    else if s[0] == c then Some(0)
    else
      match IndexOf(s[1..], c)
      case None => None
      case Some(i) =>
        assert s[..i + 1] == [s[0]] + s[1..][..i];
        Some(i + 1)
  }

  /** `xs` joined with one `sep` between consecutive elements (none before
      the first, none after the last). */
  function Join(xs: seq<Bytes>, sep: byte): Bytes {
    if |xs| == 0 then []
    else if |xs| == 1 then xs[0]
    else xs[0] + [sep] + Join(xs[1..], sep)
  }

  lemma {:induction false} JoinSnoc(xs: seq<Bytes>, x: Bytes, sep: byte)
    requires |xs| > 0
    ensures Join(xs + [x], sep) == Join(xs, sep) + [sep] + x
  {
    if |xs| == 1 {
      assert (xs + [x])[1..] == [x];
    } else {
      assert (xs + [x])[1..] == xs[1..] + [x];
      JoinSnoc(xs[1..], x, sep);
    }
  }

  /** Every field of `s` between occurrences of `sep`, empty fields
      included; the result is never empty. */
  function SplitOn(s: Bytes, sep: byte): (r: seq<Bytes>)
    ensures |r| > 0
    decreases |s|
  {
    match IndexOf(s, sep)
    case None => [s]
    case Some(i) => [s[..i]] + SplitOn(s[i + 1..], sep)
  }

  lemma SplitOnAbsent(s: Bytes, sep: byte)
    requires sep !in s
    ensures SplitOn(s, sep) == [s]
  {
  }

  lemma SplitOnCons(x: Bytes, y: Bytes, sep: byte)
    requires sep !in x
    ensures SplitOn(x + [sep] + y, sep) == [x] + SplitOn(y, sep)
  {
    var s := x + [sep] + y;
    assert s[|x|] == sep;
    assert s[..|x|] == x;
    assert s[|x| + 1..] == y;
  }

  /** Splitting a join recovers the pieces when no piece contains the separator. */
  lemma {:induction false} SplitJoin(xs: seq<Bytes>, sep: byte)
    requires |xs| > 0
    requires forall i | 0 <= i < |xs| :: sep !in xs[i]
    ensures SplitOn(Join(xs, sep), sep) == xs
  {
    if |xs| == 1 {
      SplitOnAbsent(xs[0], sep);
    } else {
      SplitJoin(xs[1..], sep);
      SplitOnCons(xs[0], Join(xs[1..], sep), sep);
    }
  }

  /** A join of n separator-free pieces holds exactly n - 1 separators. */
  lemma {:induction false} CountJoin(xs: seq<Bytes>, sep: byte)
    requires |xs| > 0
    requires forall i | 0 <= i < |xs| :: sep !in xs[i]
    ensures Count(Join(xs, sep), sep) == |xs| - 1
  {
    CountAbsent(xs[0], sep);
    if |xs| > 1 {
      CountJoin(xs[1..], sep);
      CountAppend(xs[0] + [sep], Join(xs[1..], sep), sep);
      CountAppend(xs[0], [sep], sep);
    }
  }

  /** The prefix before the first `sep` and the suffix after it. */
  function SplitAtFirst(s: Bytes, sep: byte): (r: Option<(Bytes, Bytes)>)
    ensures r.None? <==> sep !in s
    ensures r.Some? ==> s == r.value.0 + [sep] + r.value.1 && sep !in r.value.0
  {
    match IndexOf(s, sep)
    case None => None
    case Some(i) =>
      assert s == s[..i] + [sep] + s[i + 1..];
      Some((s[..i], s[i + 1..]))
  }

  lemma SplitAtFirstOf(x: Bytes, y: Bytes, sep: byte)
    requires sep !in x
    ensures SplitAtFirst(x + [sep] + y, sep) == Some((x, y))
  {
    var s := x + [sep] + y;
    assert s[|x|] == sep;
    assert s[..|x|] == x;
    assert s[|x| + 1..] == y;
  }

  /** Ruby's `s.gsub(pat, rep)` for a literal pattern: scans left to right and
      replaces each non-overlapping occurrence of `pat`. */
  function Gsub(s: Bytes, pat: Bytes, rep: Bytes): Bytes
    requires |pat| > 0
    decreases |s|
  {
    if |s| < |pat| then s
    else if s[..|pat|] == pat then rep + Gsub(s[|pat|..], pat, rep)
    else [s[0]] + Gsub(s[1..], pat, rep)
  }

  /** A leading byte that cannot start the pattern is copied unchanged. */
  lemma GsubCons(c: byte, s: Bytes, pat: Bytes, rep: Bytes)
    requires |pat| > 0 && c != pat[0]
    ensures Gsub([c] + s, pat, rep) == [c] + Gsub(s, pat, rep)
  {
    var t := [c] + s;
    assert t[1..] == s;
    if |t| < |pat| {
      assert Gsub(s, pat, rep) == s;
    } else {
      assert t[..|pat|][0] == c;
    }
  }

  lemma {:induction false} GsubAbsent(s: Bytes, pat: Bytes, rep: Bytes)
    requires |pat| > 0 && pat[0] !in s
    ensures Gsub(s, pat, rep) == s
  {
    if |s| > 0 {
      GsubAbsent(s[1..], pat, rep);
      assert s == [s[0]] + s[1..];
      GsubCons(s[0], s[1..], pat, rep);
    }
  }

  /** With a one-byte pattern, substitution distributes over concatenation. */
  lemma {:induction false} GsubByteAppend(a: Bytes, b: Bytes, c: byte, rep: Bytes)
    ensures Gsub(a + b, [c], rep) == Gsub(a, [c], rep) + Gsub(b, [c], rep)
  {
    if |a| == 0 {
      assert a + b == b;
    } else {
      assert (a + b)[1..] == a[1..] + b;
      assert (a + b)[..1] == a[..1];
      GsubByteAppend(a[1..], b, c, rep);
    }
  }

  /** The bytes of `s` other than `c`, in their original order. */
  function Without(s: Bytes, c: byte): Bytes {
    if |s| == 0 then []
    else if s[0] == c then Without(s[1..], c)
    else [s[0]] + Without(s[1..], c)
  }

  /** Removing every `c` (Ruby's `gsub(c, '')`) leaves none behind and keeps
      every other byte, in order. */
  lemma {:induction false} GsubDeletes(s: Bytes, c: byte)
    ensures Gsub(s, [c], []) == Without(s, c)
    ensures c !in Gsub(s, [c], [])
    ensures forall d :: d != c ==> Count(Gsub(s, [c], []), d) == Count(s, d)
    ensures |Gsub(s, [c], [])| == |s| - Count(s, c)
  {
    if |s| > 0 {
      GsubDeletes(s[1..], c);
      var rest := Gsub(s[1..], [c], []);
      if s[0] != c {
        assert s[..1] != [c];
        assert Gsub(s, [c], []) == [s[0]] + rest;
        assert ([s[0]] + rest)[1..] == rest;
      } else {
        assert s[..1] == [c];
        assert Gsub(s, [c], []) == rest;
      }
    }
  }
}

=== FILE: canonical.dfy ===
/** The canonical query string and the string-to-sign of `compute_signature`
    in `lib/aliyun/ecs.rb`, and a query-string parser that recovers the
    parameter map from the canonical form. */
module Canonical {
  import opened Wrappers
  import opened ByteStrings
  import opened ByteOrder
  import opened Percent

  /** A request parameter set: key text to value text. Keys are already in
      their textual form (the source's `to_sym` / `to_s` round trip). */
  type Params = map<Bytes, Bytes>

  /** `enc(key)=enc(value)` */
  function Entry(k: Bytes, v: Bytes): (e: Bytes)
    ensures AMP !in e && |e| > 0
  {
    EncodedHasNoSeparators(k);
    EncodedHasNoSeparators(v);
    PercentEncode(k) + [EQ] + PercentEncode(v)
  }

  /** The entries of `m` for the keys `ks`, in that order. */
  function Entries(m: Params, ks: seq<Bytes>): seq<Bytes>
    requires forall i | 0 <= i < |ks| :: ks[i] in m
  {
    seq(|ks|, i requires 0 <= i < |ks| => Entry(ks[i], m[ks[i]]))
  }

  /** The entries in ascending byte-wise key order, joined by `&`. */
  function CanonicalQuery(m: Params): Bytes {
    Join(Entries(m, SortedKeys(m.Keys)), AMP)
  }

  /** The string the loop of lines 53-58 accumulates: `&enc(k)=enc(v)` for
      each key of `ks` in turn. */
  function Accumulated(m: Params, ks: seq<Bytes>): Bytes
    requires forall i | 0 <= i < |ks| :: ks[i] in m
  {
    if |ks| == 0 then []
    else Accumulated(m, ks[..|ks| - 1]) + [AMP] + Entry(ks[|ks| - 1], m[ks[|ks| - 1]])
  }

  /** Lines 51-60 as written: for each sorted key append `&`, the encoded
      key, `=` and the encoded value, then take everything after the first
      character. On an empty map the slice `[1, length]` of the empty string
      is `nil`, which `percent_encode` reads as the empty string. */
  method CanonicalizedQueryString(m: Params) returns (cqs: Bytes)
    ensures cqs == CanonicalQuery(m)
  {
    var ks := SortedKeys(m.Keys);
    var acc: Bytes := [];
    var i := 0;
    while i < |ks|
      invariant 0 <= i <= |ks|
      invariant acc == Accumulated(m, ks[..i])
    {
      AccumulatedSnoc(m, ks, i);
      acc := acc + [AMP] + Entry(ks[i], m[ks[i]]);
      i := i + 1;
    }
    assert ks[..|ks|] == ks;
    if |m| > 0 {
      DropLeadingSeparator(m);
    }
    if |acc| == 0 {
      cqs := [];
    } else {
      cqs := acc[1..];
    }
  }

  lemma AccumulatedSnoc(m: Params, ks: seq<Bytes>, i: nat)
    requires i < |ks|
    requires forall j | 0 <= j < |ks| :: ks[j] in m
    ensures Accumulated(m, ks[..i + 1]) == Accumulated(m, ks[..i]) + [AMP] + Entry(ks[i], m[ks[i]])
  {
    assert ks[..i + 1][..i] == ks[..i];
  }

  lemma DropLeadingSeparator(m: Params)
    requires |m| > 0
    ensures var acc := Accumulated(m, SortedKeys(m.Keys));
      |acc| > 0 && acc[1..] == CanonicalQuery(m)
  {
    AccumulatedIsJoin(m, SortedKeys(m.Keys));
  }

  /** Prefixing every entry with `&` and dropping the first character is
      the same as joining the entries with `&`. */
  lemma {:induction false} AccumulatedIsJoin(m: Params, ks: seq<Bytes>)
    requires |ks| > 0
    requires forall i | 0 <= i < |ks| :: ks[i] in m
    ensures Accumulated(m, ks) == [AMP] + Join(Entries(m, ks), AMP)
  {
    if |ks| == 1 {
      AccumulatedOne(m, ks);
    } else {
      AccumulatedIsJoin(m, ks[..|ks| - 1]);
      AccumulatedStep(m, ks);
    }
  }

  lemma AccumulatedOne(m: Params, ks: seq<Bytes>)
    requires |ks| == 1 && ks[0] in m
    ensures Accumulated(m, ks) == [AMP] + Join(Entries(m, ks), AMP)
  {
    assert Entries(m, ks) == [Entry(ks[0], m[ks[0]])];
    assert ks[..0] == [];
  }

  lemma AccumulatedStep(m: Params, ks: seq<Bytes>)
    requires |ks| > 1
    requires forall i | 0 <= i < |ks| :: ks[i] in m
    requires Accumulated(m, ks[..|ks| - 1]) == [AMP] + Join(Entries(m, ks[..|ks| - 1]), AMP)
    ensures Accumulated(m, ks) == [AMP] + Join(Entries(m, ks), AMP)
  {
    var n := |ks|;
    var e := Entry(ks[n - 1], m[ks[n - 1]]);
    EntriesSnoc(m, ks, n - 1);
    assert ks[..n] == ks;
    SeparatedSnoc(Accumulated(m, ks[..n - 1]), Entries(m, ks[..n - 1]), e);
  }

  /** Appending `&` and one more piece to a `&`-led join. */
  lemma SeparatedSnoc(acc: Bytes, xs: seq<Bytes>, x: Bytes)
    requires |xs| > 0 && acc == [AMP] + Join(xs, AMP)
    ensures acc + [AMP] + x == [AMP] + Join(xs + [x], AMP)
  {
    JoinSnoc(xs, x, AMP);
    assert acc + [AMP] + x == [AMP] + (Join(xs, AMP) + [AMP] + x);
  }

  lemma EntriesSnoc(m: Params, ks: seq<Bytes>, i: nat)
    requires i < |ks|
    requires forall j | 0 <= j < |ks| :: ks[j] in m
    ensures Entries(m, ks[..i + 1]) == Entries(m, ks[..i]) + [Entry(ks[i], m[ks[i]])]
  {
  }

  // ---------------------------------------------------------------------
  // A reference parser for query strings.

  /** Splits one `key=value` piece at its first `=` and decodes both sides. */
  function ParsePair(piece: Bytes): Option<(Bytes, Bytes)> {
    match SplitAtFirst(piece, EQ)
    case None => None
    case Some((ek, ev)) =>
      match (Decode(ek), Decode(ev))
      case (Some(k), Some(v)) => Some((k, v))
      case _ => None
  }

  /** Parses the pieces in order; a later piece wins on a repeated key. */
  function ParsePieces(ps: seq<Bytes>): Option<Params> {
    if |ps| == 0 then Some(map[])
    else
      match (ParsePair(ps[0]), ParsePieces(ps[1..]))
      case (Some((k, v)), Some(rest)) => Some(map[k := v] + rest)
      case _ => None
  }

  /** Splits on `&` and parses every piece; the empty string is the empty map. */
  function ParseQuery(s: Bytes): Option<Params> {
    if |s| == 0 then Some(map[]) else ParsePieces(SplitOn(s, AMP))
  }

  lemma ParseEntry(k: Bytes, v: Bytes)
    ensures ParsePair(Entry(k, v)) == Some((k, v))
  {
    EncodedHasNoSeparators(k);
    SplitAtFirstOf(PercentEncode(k), PercentEncode(v), EQ);
    DecodeIff(PercentEncode(k), k);
    DecodeIff(PercentEncode(v), v);
  }

  lemma {:induction false} ParseEntries(m: Params, ks: seq<Bytes>)
    requires forall i | 0 <= i < |ks| :: ks[i] in m
    requires forall i, j | 0 <= i < j < |ks| :: ks[i] != ks[j]
    ensures ParsePieces(Entries(m, ks)) == Some(Restrict(m, ks))
  {
    if |ks| > 0 {
      var es := Entries(m, ks);
      assert es[1..] == Entries(m, ks[1..]);
      assert es[0] == Entry(ks[0], m[ks[0]]);
      ParseEntry(ks[0], m[ks[0]]);
      ParseEntries(m, ks[1..]);
      RestrictCons(m, ks);
    }
  }

  /** `m` restricted to the keys listed in `ks`. */
  function Restrict(m: Params, ks: seq<Bytes>): Params
    requires forall i | 0 <= i < |ks| :: ks[i] in m
  {
    map k | k in ks :: m[k]
  }

  lemma RestrictCons(m: Params, ks: seq<Bytes>)
    requires |ks| > 0
    requires forall i | 0 <= i < |ks| :: ks[i] in m
    ensures Restrict(m, ks) == map[ks[0] := m[ks[0]]] + Restrict(m, ks[1..])
  {
    assert forall k :: k in ks <==> k == ks[0] || k in ks[1..];
  }

  /** Parsing the canonical query string recovers exactly the parameter map. */
  lemma CanonicalQueryRoundTrip(m: Params)
    ensures ParseQuery(CanonicalQuery(m)) == Some(m)
  {
    var ks := SortedKeys(m.Keys);
    AscendingDistinct(ks);
    ParseEntries(m, ks);
    RestrictAll(m, ks);
    if |m| > 0 {
      SplitJoin(Entries(m, ks), AMP);
      CanonicalQueryShape(m);
    }
  }

  lemma AscendingDistinct(ks: seq<Bytes>)
    requires StrictlyAscending(ks)
    ensures forall i, j | 0 <= i < j < |ks| :: ks[i] != ks[j]
  {
    forall i, j | 0 <= i < j < |ks|
      ensures ks[i] != ks[j]
    {
      LessIrreflexive(ks[i]);
    }
  }

  lemma RestrictAll(m: Params, ks: seq<Bytes>)
    requires forall k :: k in ks <==> k in m
    ensures Restrict(m, ks) == m
  {
  }

  /** Shape of the canonical query string of a non-empty map: the pieces
      between `&` are the entries in strictly ascending key order, there is
      no leading `&`, and there are exactly |m| - 1 of them. */
  lemma CanonicalQueryShape(m: Params)
    requires |m| > 0
    ensures var ks := SortedKeys(m.Keys);
      && StrictlyAscending(ks)
      && SplitOn(CanonicalQuery(m), AMP) == Entries(m, ks)
    ensures CanonicalQuery(m)[0] != AMP
    ensures Count(CanonicalQuery(m), AMP) == |m| - 1
  {
    var ks := SortedKeys(m.Keys);
    var es := Entries(m, ks);
    SplitJoin(es, AMP);
    CountJoin(es, AMP);
    assert es[0][0] != AMP;
    if |es| > 1 {
      assert CanonicalQuery(m) == es[0] + [AMP] + Join(es[1..], AMP);
    }
  }

  /** Distinct parameter maps have distinct canonical query strings. */
  lemma CanonicalQueryInjective(m1: Params, m2: Params)
    ensures CanonicalQuery(m1) == CanonicalQuery(m2) <==> m1 == m2
  {
    CanonicalQueryRoundTrip(m1);
    CanonicalQueryRoundTrip(m2);
  }
}

=== FILE: client.dfy ===
/** The public face of `Aliyun::ECS`: `method_missing` resolves the action
    name and hands the first argument to the request builder, and the error
    path reports the parameters with the access key id held back. The
    transport itself is outside the model; a dispatch ends in the request
    that would be sent. */
module Client {
  import opened Wrappers
  import opened ByteStrings
  import opened Canonical
  import opened Signer
  import opened Config
  import opened ActionName
  import opened RequestParams

  /** What `RestClient.send` is asked to do (line 28): the verb is the
      configured request method in lower case. */
  datatype Request = Request(verb: Bytes, url: Option<Bytes>, params: Params)

  datatype Outcome =
    | NotHandled                   // `super` raises NoMethodError (line 19)
    | BuildFailed(err: BuildError) // a nil store entry (lines 38, 60, 61)
    | Send(request: Request)

  /** Lines 18-28: an identifier with an upper-case letter is declined;
      otherwise the camel-cased action is built into a signed request. */
  function Dispatch(identifier: Bytes, callerParams: Option<Params>, store: Store, nonce: Bytes,
                    timestamp: Bytes, p: Primitives): (o: Outcome)
    ensures o.NotHandled? <==> HasUpper(identifier)
    ensures o.BuildFailed? ==> Build(Camel(identifier), callerParams, store, nonce, timestamp, p) == Failure(o.err)
    ensures o.Send? ==>
      && Build(Camel(identifier), callerParams, store, nonce, timestamp, p) == Success(o.request.params)
      && o.request.url == store.endpointUrl
      && o.request.verb == DowncaseAll(store.requestMethod.value)
  {
    match Resolve(identifier)
    case None => NotHandled
    case Some(action) =>
      match Build(action, callerParams, store, nonce, timestamp, p)
      case Failure(err) => BuildFailed(err)
      case Success(params) => Send(Request(DowncaseAll(store.requestMethod.value), store.endpointUrl, params))
  }

  /** A dispatched request names the resolved action and carries a
      signature without newlines. */
  lemma DispatchedAction(identifier: Bytes, callerParams: Option<Params>, store: Store, nonce: Bytes,
                         timestamp: Bytes, p: Primitives)
    requires !HasUpper(identifier)
    requires store.requestParameters.Some? && store.requestMethod.Some? && store.accessKeySecret.Some?
    ensures var o := Dispatch(identifier, callerParams, store, nonce, timestamp, p);
      && o.Send?
      && o.request.params[ACTION] == Camel(identifier)
      && UNDERSCORE !in o.request.params[ACTION]
      && NEWLINE !in o.request.params[SIGNATURE]
  {
    BuildFields(Camel(identifier), callerParams, store, nonce, timestamp, p);
    CamelHasNoUnderscore(identifier, true);
  }

  /** Neither a missing access key id nor a missing endpoint stops the
      build: the key id is signed and sent as empty text, and the `nil`
      endpoint is handed to the transport. */
  lemma MissingKeyIdAndEndpointStillSend(identifier: Bytes, callerParams: Option<Params>, store: Store,
                                         nonce: Bytes, timestamp: Bytes, p: Primitives)
    requires !HasUpper(identifier)
    requires store.accessKeyId.None? && store.endpointUrl.None?
    requires store.requestParameters.Some? && store.requestMethod.Some? && store.accessKeySecret.Some?
    ensures var o := Dispatch(identifier, callerParams, store, nonce, timestamp, p);
      && o.Send?
      && o.request.url.None?
      && o.request.params[ACCESS_KEY_ID] == []
  {
    BuildFields(Camel(identifier), callerParams, store, nonce, timestamp, p);
  }

  /** Line 31: the parameters quoted in a response error, without the
      access key id. */
  function Redact(params: Params): (r: Params)
    ensures ACCESS_KEY_ID !in r
    ensures forall k | k in params && k != ACCESS_KEY_ID :: k in r && r[k] == params[k]
    ensures forall k | k in r :: k in params
  {
    map k | k in params && k != ACCESS_KEY_ID :: params[k]
  }

  /** Redaction loses the access key id and nothing else: putting the entry
      back restores the sent parameters. */
  lemma RedactRestore(params: Params)
    requires ACCESS_KEY_ID in params
    ensures Redact(params)[ACCESS_KEY_ID := params[ACCESS_KEY_ID]] == params
    ensures |Redact(params)| == |params| - 1
  {
    var r := Redact(params);
    assert r.Keys == params.Keys - {ACCESS_KEY_ID};
    assert r[ACCESS_KEY_ID := params[ACCESS_KEY_ID]].Keys == params.Keys;
  }

  lemma RedactIdempotent(params: Params)
    ensures Redact(Redact(params)) == Redact(params)
  {
  }

  /** The error report of a dispatched request still shows the action, the
      nonce, the timestamp and the signature that were sent. */
  lemma RedactedReport(identifier: Bytes, callerParams: Option<Params>, store: Store, nonce: Bytes,
                       timestamp: Bytes, p: Primitives)
    requires !HasUpper(identifier)
    requires store.requestParameters.Some? && store.requestMethod.Some? && store.accessKeySecret.Some?
    ensures var sent := Dispatch(identifier, callerParams, store, nonce, timestamp, p).request.params;
      var shown := Redact(sent);
      && ACCESS_KEY_ID in sent && ACCESS_KEY_ID !in shown
      && shown[ACTION] == Camel(identifier)
      && shown[SIGNATURE_NONCE] == nonce
      && shown[TIME_STAMP] == timestamp
      && shown[SIGNATURE] == sent[SIGNATURE]
  {
    GeneratedKeysDistinct();
    BuildFields(Camel(identifier), callerParams, store, nonce, timestamp, p);
  }
}

=== FILE: config.dfy ===
/** The configuration precedence of `initialize` in `lib/aliyun/ecs.rb`.
    The process-wide store is passed in and returned as an explicit value;
    `nil` is `None`. */
module Config {
  import opened Wrappers
  import opened ByteStrings

  /** Constructor options `access_key_id`, `access_key_secret`, `endpoint_url`. */
  datatype Options = Options(
    accessKeyId: Option<Bytes>,
    accessKeySecret: Option<Bytes>,
    endpointUrl: Option<Bytes>)

  /** The environment variables `ACCESS_KEY_ID` and `ACCESS_KEY_SECRET`. */
  datatype Environment = Environment(
    accessKeyId: Option<Bytes>,
    accessKeySecret: Option<Bytes>)

  /** The shared `Aliyun[...]` store. `requestMethod` and
      `requestParameters` are read by the signer but set elsewhere. */
  datatype Store = Store(
    accessKeyId: Option<Bytes>,
    accessKeySecret: Option<Bytes>,
    endpointUrl: Option<Bytes>,
    requestMethod: Option<Bytes>,
    requestParameters: Option<map<Bytes, Bytes>>)

  /** Lines 13-15: each credential is the option if given, else the stored
      value, else the environment; the endpoint is set from the option only
      while none is stored (`||=`). */
  function Initialize(options: Options, stored: Store, env: Environment): (r: Store)
    ensures options.accessKeyId.Some? ==> r.accessKeyId == options.accessKeyId
    ensures options.accessKeyId.None? && stored.accessKeyId.Some? ==> r.accessKeyId == stored.accessKeyId
    ensures options.accessKeyId.None? && stored.accessKeyId.None? ==> r.accessKeyId == env.accessKeyId
    ensures options.accessKeySecret.Some? ==> r.accessKeySecret == options.accessKeySecret
    ensures options.accessKeySecret.None? && stored.accessKeySecret.Some? ==> r.accessKeySecret == stored.accessKeySecret
    ensures options.accessKeySecret.None? && stored.accessKeySecret.None? ==> r.accessKeySecret == env.accessKeySecret
    ensures stored.endpointUrl.Some? ==> r.endpointUrl == stored.endpointUrl
    ensures stored.endpointUrl.None? ==> r.endpointUrl == options.endpointUrl
    ensures r.requestMethod == stored.requestMethod && r.requestParameters == stored.requestParameters
  {
    stored.(
      accessKeyId := options.accessKeyId.OrElse(stored.accessKeyId).OrElse(env.accessKeyId),
      accessKeySecret := options.accessKeySecret.OrElse(stored.accessKeySecret).OrElse(env.accessKeySecret),
      endpointUrl := stored.endpointUrl.OrElse(options.endpointUrl))
  }

  /** Constructing the same client twice changes nothing the second time. */
  lemma InitializeIdempotent(options: Options, stored: Store, env: Environment)
    ensures Initialize(options, Initialize(options, stored, env), env) == Initialize(options, stored, env)
  {
  }

  /** A sequence of client constructions, oldest first. */
  function InitializeAll(constructions: seq<Options>, stored: Store, env: Environment): Store
    decreases |constructions|
  {
    if |constructions| == 0 then stored
    else InitializeAll(constructions[1..], Initialize(constructions[0], stored, env), env)
  }

  /** The endpoint is fixed by the first construction that supplies one (or
      by the store), and never changes afterwards. */
  lemma {:induction false} EndpointFirstWins(constructions: seq<Options>, stored: Store, env: Environment)
    ensures stored.endpointUrl.Some? ==>
      InitializeAll(constructions, stored, env).endpointUrl == stored.endpointUrl
    ensures forall i | 0 <= i < |constructions| ::
      (stored.endpointUrl.None? && constructions[i].endpointUrl.Some?
       && forall j | 0 <= j < i :: constructions[j].endpointUrl.None?)
      ==> InitializeAll(constructions, stored, env).endpointUrl == constructions[i].endpointUrl
    decreases |constructions|
  {
    if |constructions| > 0 {
      var next := Initialize(constructions[0], stored, env);
      EndpointFirstWins(constructions[1..], next, env);
      forall i | 0 < i < |constructions|
        ensures constructions[1..][i - 1] == constructions[i]
      {
      }
    }
  }

  /** A credential, once stored, is never lost: later constructions can
      replace it with an option but never reset it to `nil`. */
  lemma {:induction false} CredentialsPersist(constructions: seq<Options>, stored: Store, env: Environment)
    ensures stored.accessKeyId.Some? ==> InitializeAll(constructions, stored, env).accessKeyId.Some?
    ensures stored.accessKeySecret.Some? ==> InitializeAll(constructions, stored, env).accessKeySecret.Some?
    decreases |constructions|
  {
    if |constructions| > 0 {
      CredentialsPersist(constructions[1..], Initialize(constructions[0], stored, env), env);
    }
  }

  /** The last construction that passes an access key id decides it, however
      many constructions without one follow. */
  lemma {:induction false} LastCredentialWins(constructions: seq<Options>, i: nat, stored: Store, env: Environment)
    requires i < |constructions| && constructions[i].accessKeyId.Some?
    requires forall j | i < j < |constructions| :: constructions[j].accessKeyId.None?
    ensures InitializeAll(constructions, stored, env).accessKeyId == constructions[i].accessKeyId
    decreases |constructions|
  {
    var next := Initialize(constructions[0], stored, env);
    if i == 0 {
      StoredCredentialKept(constructions[1..], next, env);
    } else {
      LastCredentialWins(constructions[1..], i - 1, next, env);
    }
  }

  /** Constructions that pass no access key id keep the stored one. */
  lemma {:induction false} StoredCredentialKept(constructions: seq<Options>, stored: Store, env: Environment)
    requires stored.accessKeyId.Some?
    requires forall j | 0 <= j < |constructions| :: constructions[j].accessKeyId.None?
    ensures InitializeAll(constructions, stored, env).accessKeyId == stored.accessKeyId
    decreases |constructions|
  {
    if |constructions| > 0 {
      StoredCredentialKept(constructions[1..], Initialize(constructions[0], stored, env), env);
    }
  }
}

=== FILE: percent.dfy ===
/** The percent encoder of `lib/aliyun/ecs.rb` (`percent_encode`): Ruby's
    `URI.encode_www_form_component` followed by three substitutions, which
    together give the percent-encoding of section 2.1 of RFC 3986 with exactly
    the unreserved characters of section 2.3 left literal. */
module Percent {
  import opened ByteStrings
  import opened Wrappers

  /** `A-Z a-z 0-9 - . _ ~`, the unreserved set of RFC 3986 section 2.3. */
  predicate IsUnreserved(b: byte) {
    IsUpper(b) || IsLower(b) || IsDigit(b) || b == 45 || b == 46 || b == UNDERSCORE || b == TILDE
  }

  /** `* - . 0-9 A-Z _ a-z`, the bytes `encode_www_form_component` keeps. */
  predicate IsFormSafe(b: byte) {
    IsUpper(b) || IsLower(b) || IsDigit(b) || b == STAR || b == 45 || b == 46 || b == UNDERSCORE
  }

  /** An upper-case hexadecimal digit. */
  predicate IsHexDigit(b: byte) { IsDigit(b) || 65 <= b <= 70 }

  function HexDigit(n: int): (h: byte)
    requires 0 <= n < 16
    ensures IsHexDigit(h)
  {
    if n < 10 then 48 + n else 55 + n
  }

  function HexValue(h: byte): (n: int)
    requires IsHexDigit(h)
    ensures 0 <= n < 16 && HexDigit(n) == h
  {
    if IsDigit(h) then h - 48 else h - 55
  }

  /** `%` and the two upper-case hex digits of `b`. */
  function Escape(b: byte): Bytes {
    [PERCENT, HexDigit(b / 16), HexDigit(b % 16)]
  }

  lemma EscapeInjective(a: byte, b: byte)
    requires Escape(a) == Escape(b)
    ensures a == b
  {
    assert HexValue(HexDigit(a / 16)) == a / 16 by { HexDigitValue(a / 16); }
    assert HexValue(HexDigit(b / 16)) == b / 16 by { HexDigitValue(b / 16); }
    assert HexValue(HexDigit(a % 16)) == a % 16 by { HexDigitValue(a % 16); }
    assert HexValue(HexDigit(b % 16)) == b % 16 by { HexDigitValue(b % 16); }
  }

  lemma HexDigitValue(n: int)
    requires 0 <= n < 16
    ensures HexValue(HexDigit(n)) == n
  {
  }

  // ---------------------------------------------------------------------
  // The encoder as the source composes it.

  /** One byte through `URI.encode_www_form_component`: safe bytes stay,
      a space becomes `+`, everything else is escaped. */
  function FormEncodeByte(b: byte): Bytes {
    if IsFormSafe(b) then [b]
    else if b == SPACE then [PLUS]
    else Escape(b)
  }

  function FormEncode(s: Bytes): Bytes {
    if |s| == 0 then [] else FormEncodeByte(s[0]) + FormEncode(s[1..])
  }

  /** `percent_encode`: the form encoding with `+` turned into `%20`, `*`
      into `%2A` and `%7E` back into `~`. */
  function PercentEncode(v: Bytes): (r: Bytes)
    ensures r == Rfc3986Encode(v)
    ensures forall i | 0 <= i < |r| :: IsUnreserved(r[i]) || r[i] == PERCENT
  {
    var spaces := Gsub(FormEncode(v), [PLUS], Ascii("%20"));
    var stars := Gsub(spaces, [STAR], Ascii("%2A"));
    PipelineIsRfc3986(v);
    Gsub(stars, Ascii("%7E"), [TILDE])
  }

  // ---------------------------------------------------------------------
  // The independent reference: RFC 3986 percent-encoding.

  /** Unreserved bytes stand for themselves; every other byte becomes `%`
      followed by two upper-case hex digits whose value is the byte. */
  function EncodeByte(b: byte): (r: Bytes)
    ensures IsUnreserved(b) ==> r == [b]
    ensures !IsUnreserved(b) ==>
      |r| == 3 && r[0] == PERCENT && IsHexDigit(r[1]) && IsHexDigit(r[2])
      && 16 * HexValue(r[1]) + HexValue(r[2]) == b
  {
    if IsUnreserved(b) then [b] else Escape(b)
  }

  function Rfc3986Encode(v: Bytes): (r: Bytes)
    ensures forall i | 0 <= i < |r| :: IsUnreserved(r[i]) || r[i] == PERCENT
  {
    if |v| == 0 then []
    else
      var head := EncodeByte(v[0]);
      var tail := Rfc3986Encode(v[1..]);
      assert forall i | 0 <= i < |head| :: IsUnreserved(head[i]) || head[i] == PERCENT;
      head + tail
  }

  lemma {:induction false} Rfc3986EncodeAppend(a: Bytes, b: Bytes)
    ensures Rfc3986Encode(a + b) == Rfc3986Encode(a) + Rfc3986Encode(b)
  {
    if |a| > 0 {
      assert (a + b)[1..] == a[1..] + b;
      Rfc3986EncodeAppend(a[1..], b);
    } else {
      assert a + b == b;
    }
  }

  // ---------------------------------------------------------------------
  // The source pipeline agrees with the reference.

  /** A byte after the `+` and `*` substitutions: only `~` is still escaped
      although unreserved. */
  function StarredByte(b: byte): Bytes {
    if IsUnreserved(b) && b != TILDE then [b] else Escape(b)
  }

  function Starred(v: Bytes): Bytes {
    if |v| == 0 then [] else StarredByte(v[0]) + Starred(v[1..])
  }

  lemma {:induction false} PlusAndStar(v: Bytes)
    ensures Gsub(Gsub(FormEncode(v), [PLUS], Ascii("%20")), [STAR], Ascii("%2A")) == Starred(v)
  {
    if |v| > 0 {
      var tok := FormEncodeByte(v[0]);
      var rest := FormEncode(v[1..]);
      PlusAndStar(v[1..]);
      GsubByteAppend(tok, rest, PLUS, Ascii("%20"));
      GsubByteAppend(Gsub(tok, [PLUS], Ascii("%20")), Gsub(rest, [PLUS], Ascii("%20")), STAR, Ascii("%2A"));
      PlusAndStarByte(v[0]);
    }
  }

  lemma PlusAndStarByte(b: byte)
    ensures Gsub(Gsub(FormEncodeByte(b), [PLUS], Ascii("%20")), [STAR], Ascii("%2A")) == StarredByte(b)
  {
    var tok := FormEncodeByte(b);
    var tok1 := Gsub(tok, [PLUS], Ascii("%20"));
    if b == SPACE {
      assert tok == [PLUS] && tok[..1] == [PLUS] && tok[1..] == [];
      assert tok1 == Ascii("%20") + Gsub([], [PLUS], Ascii("%20"));
      assert Ascii("%20") == Escape(SPACE);
      GsubAbsent(tok1, [STAR], Ascii("%2A"));
    } else if b == STAR {
      GsubAbsent(tok, [PLUS], Ascii("%20"));
      assert Gsub(tok1, [STAR], Ascii("%2A")) == Ascii("%2A") == Escape(STAR);
    } else {
      GsubAbsent(tok, [PLUS], Ascii("%20"));
      GsubAbsent(tok1, [STAR], Ascii("%2A"));
    }
  }

  lemma {:induction false} TildeRestored(v: Bytes)
    ensures Gsub(Starred(v), Ascii("%7E"), [TILDE]) == Rfc3986Encode(v)
  {
    if |v| > 0 {
      TildeRestored(v[1..]);
      TildeRestoredByte(v[0], Starred(v[1..]));
    }
  }

  /** One byte of the last substitution: `%7E` turns back into `~`, and
      every other token passes through. */
  lemma TildeRestoredByte(b: byte, rest: Bytes)
    ensures Gsub(StarredByte(b) + rest, Ascii("%7E"), [TILDE])
            == EncodeByte(b) + Gsub(rest, Ascii("%7E"), [TILDE])
  {
    var pat := Ascii("%7E");
    assert pat == Escape(TILDE);
    if IsUnreserved(b) && b != TILDE {
      GsubCons(b, rest, pat, [TILDE]);
    } else {
      var s := Escape(b) + rest;
      assert s[..3] == Escape(b);
      if b == TILDE {
        assert s[3..] == rest;
      } else {
        if Escape(b) == pat {
          EscapeInjective(b, TILDE);
        }
        assert s[1..] == [HexDigit(b / 16)] + ([HexDigit(b % 16)] + rest);
        GsubCons(HexDigit(b / 16), [HexDigit(b % 16)] + rest, pat, [TILDE]);
        GsubCons(HexDigit(b % 16), rest, pat, [TILDE]);
      }
    }
  }

  lemma PipelineIsRfc3986(v: Bytes)
    ensures Gsub(Gsub(Gsub(FormEncode(v), [PLUS], Ascii("%20")), [STAR], Ascii("%2A")), Ascii("%7E"), [TILDE])
            == Rfc3986Encode(v)
  {
    PlusAndStar(v);
    TildeRestored(v);
  }

  // ---------------------------------------------------------------------
  // Decoding, and the encoder's injectivity.

  /** The byte `%hi lo` stands for, when it is a canonical escape: two
      upper-case hex digits naming a byte that is not unreserved. */
  function Unescape(hi: byte, lo: byte): (r: Option<byte>)
    ensures r.Some? ==> Escape(r.value) == [PERCENT, hi, lo] && !IsUnreserved(r.value)
  {
    if IsHexDigit(hi) && IsHexDigit(lo) then
      var b: byte := 16 * HexValue(hi) + HexValue(lo);
      assert b / 16 == HexValue(hi) && b % 16 == HexValue(lo);
      if IsUnreserved(b) then None else Some(b)
    else None
  }

  lemma UnescapeEscape(b: byte)
    requires !IsUnreserved(b)
    ensures Unescape(HexDigit(b / 16), HexDigit(b % 16)) == Some(b)
  {
    HexDigitValue(b / 16);
    HexDigitValue(b % 16);
  }

  /** Strict percent-decoding: accepts exactly the strings the encoder
      produces (unreserved bytes literal, every other byte escaped with
      upper-case hex). */
  function Decode(s: Bytes): Option<Bytes>
    decreases |s|
  {
    if |s| == 0 then Some([])
    else if s[0] == PERCENT then
      if |s| < 3 then None
      else
        match (Unescape(s[1], s[2]), Decode(s[3..]))
        case (Some(b), Some(rest)) => Some([b] + rest)
        case _ => None
    else if IsUnreserved(s[0]) then
      match Decode(s[1..])
      case None => None
      case Some(rest) => Some([s[0]] + rest)
    else None
  }

  lemma {:induction false} DecodeEncode(v: Bytes)
    ensures Decode(Rfc3986Encode(v)) == Some(v)
  {
    if |v| > 0 {
      var b := v[0];
      var s := Rfc3986Encode(v);
      DecodeEncode(v[1..]);
      if IsUnreserved(b) {
        assert s[1..] == Rfc3986Encode(v[1..]);
      } else {
        assert s[3..] == Rfc3986Encode(v[1..]);
        UnescapeEscape(b);
      }
      assert v == [b] + v[1..];
    }
  }

  lemma {:induction false} EncodeDecode(s: Bytes)
    requires Decode(s).Some?
    ensures Rfc3986Encode(Decode(s).value) == s
  {
    if |s| > 0 {
      var v := Decode(s).value;
      if s[0] == PERCENT {
        EncodeDecode(s[3..]);
        var b := Unescape(s[1], s[2]).value;
        assert v == [b] + Decode(s[3..]).value;
        assert v[1..] == Decode(s[3..]).value;
        assert s == Escape(b) + s[3..];
      } else {
        EncodeDecode(s[1..]);
        assert v[1..] == Decode(s[1..]).value;
        assert s == [s[0]] + s[1..];
      }
    }
  }

  /** Decoding inverts the encoder, in both directions. */
  lemma DecodeIff(s: Bytes, v: Bytes)
    ensures Decode(s) == Some(v) <==> PercentEncode(v) == s
  {
    if Decode(s) == Some(v) {
      EncodeDecode(s);
    }
    if PercentEncode(v) == s {
      DecodeEncode(v);
    }
  }

  /** Distinct inputs have distinct encodings. */
  lemma EncodeInjective(a: Bytes, b: Bytes)
    requires PercentEncode(a) == PercentEncode(b)
    ensures a == b
  {
    DecodeIff(PercentEncode(a), a);
    DecodeIff(PercentEncode(a), b);
  }

  /** The output never holds the separators of a query string. */
  lemma EncodedHasNoSeparators(v: Bytes)
    ensures AMP !in PercentEncode(v) && EQ !in PercentEncode(v)
    ensures PLUS !in PercentEncode(v) && SPACE !in PercentEncode(v)
  {
  }

  lemma EncodeSingle(b: byte)
    ensures PercentEncode([b]) == EncodeByte(b)
  {
    assert Rfc3986Encode([b]) == EncodeByte(b) + Rfc3986Encode([]);
  }

  /** A space becomes `%20`, not the form encoding's `+`. */
  lemma EncodeSpace()
    ensures PercentEncode(Ascii(" ")) == Ascii("%20")
  {
    assert Ascii(" ") == [SPACE];
    EncodeSingle(SPACE);
    assert Ascii("%20") == [PERCENT, 50, 48];
  }

  /** `*`, which the form encoding keeps literal, becomes `%2A`. */
  lemma EncodeStar()
    ensures PercentEncode(Ascii("*")) == Ascii("%2A")
  {
    assert Ascii("*") == [STAR];
    EncodeSingle(STAR);
    assert Ascii("%2A") == [PERCENT, 50, 65];
  }

  /** `~`, which the form encoding escapes, stays literal. */
  lemma EncodeTilde()
    ensures PercentEncode(Ascii("~")) == Ascii("~")
  {
    assert Ascii("~") == [TILDE];
    EncodeSingle(TILDE);
  }

  lemma EncodeSlash()
    ensures PercentEncode(Ascii("/")) == Ascii("%2F")
  {
    assert Ascii("/") == [SLASH];
    EncodeSingle(SLASH);
    assert Ascii("%2F") == [PERCENT, 50, 70];
  }
}

=== FILE: request_params.dfy ===
/** `build_request_parameters` of `lib/aliyun/ecs.rb`: defaults, caller
    parameters and the generated fields merged (later wins), then the
    signature over the merged map added as `Signature`. The nonce and the
    timestamp are inputs. */
module RequestParams {
  import opened Wrappers
  import opened ByteStrings
  import opened Canonical
  import opened Signer
  import opened Config

  // The parameter names of lines 40-44, as byte displays.
  const ACCESS_KEY_ID: Bytes := [65, 99, 99, 101, 115, 115, 75, 101, 121, 73, 100]
  const ACTION: Bytes := [65, 99, 116, 105, 111, 110]
  const SIGNATURE_NONCE: Bytes := [83, 105, 103, 110, 97, 116, 117, 114, 101, 78, 111, 110, 99, 101]
  const TIME_STAMP: Bytes := [84, 105, 109, 101, 83, 116, 97, 109, 112]
  const SIGNATURE: Bytes := [83, 105, 103, 110, 97, 116, 117, 114, 101]

  /** The fields every request carries in addition to the caller's. */
  const GENERATED_KEYS: set<Bytes> := {ACCESS_KEY_ID, ACTION, SIGNATURE_NONCE, TIME_STAMP}

  /** The displays spell the names the source uses. */
  lemma ParameterNames()
    ensures ACCESS_KEY_ID == Ascii("AccessKeyId") && ACTION == Ascii("Action")
    ensures SIGNATURE_NONCE == Ascii("SignatureNonce") && TIME_STAMP == Ascii("TimeStamp")
    ensures SIGNATURE == Ascii("Signature")
  {
  }

  /** The `NoMethodError` raised when a store entry the build reads is nil. */
  datatype BuildError =
    | MissingRequestParameters   // `nil.merge`, line 38
    | MissingRequestMethod       // `nil + '&'`, line 60
    | MissingAccessKeySecret     // `nil + "&"`, line 61

  lemma GeneratedKeysDistinct()
    ensures ACCESS_KEY_ID != ACTION && ACCESS_KEY_ID != SIGNATURE_NONCE && ACCESS_KEY_ID != TIME_STAMP
    ensures ACTION != SIGNATURE_NONCE && ACTION != TIME_STAMP && SIGNATURE_NONCE != TIME_STAMP
    ensures SIGNATURE !in GENERATED_KEYS
  {
    assert TIME_STAMP[0] != SIGNATURE[0];
  }

  /** The four fields of lines 39-44. A missing access key id is `nil`,
      which the signer reads as the empty string. */
  function Generated(accessKeyId: Option<Bytes>, action: Bytes, nonce: Bytes, timestamp: Bytes): (g: Params)
    ensures g.Keys == GENERATED_KEYS
    ensures g[ACCESS_KEY_ID] == accessKeyId.GetOr([]) && g[ACTION] == action
    ensures g[SIGNATURE_NONCE] == nonce && g[TIME_STAMP] == timestamp
  {
    GeneratedKeysDistinct();
    map[ACCESS_KEY_ID := accessKeyId.GetOr([]), ACTION := action,
        SIGNATURE_NONCE := nonce, TIME_STAMP := timestamp]
  }

  /** Lines 38-44: right-biased merge of defaults, caller parameters (`nil`
      counts as empty) and generated fields. */
  function Merge(defaults: Params, callerParams: Option<Params>, generated: Params): (m: Params)
    ensures m.Keys == defaults.Keys + callerParams.GetOr(map[]).Keys + generated.Keys
    ensures forall k | k in generated :: m[k] == generated[k]
    ensures forall k | k in callerParams.GetOr(map[]) && k !in generated :: m[k] == callerParams.GetOr(map[])[k]
    ensures forall k | k in defaults && k !in callerParams.GetOr(map[]) && k !in generated :: m[k] == defaults[k]
  {
    defaults + callerParams.GetOr(map[]) + generated
  }

  /** Inserting one entry adds its key and leaves every other entry alone. */
  lemma Inserted(m: Params, k: Bytes, v: Bytes)
    ensures m[k := v].Keys == m.Keys + {k} && m[k := v][k] == v
    ensures forall j | j in m && j != k :: m[k := v][j] == m[j]
  {
  }

  /** A map that extends `m` by the one key `k` gives back `m` when `k`
      is removed. */
  lemma RemoveAdded(r: Params, m: Params, k: Bytes)
    requires k !in m && r.Keys == m.Keys + {k}
    requires forall j | j in m :: r[j] == m[j]
    ensures r - {k} == m
  {
    assert (r - {k}).Keys == m.Keys;
  }

  /** Lines 37-46. The build fails as the source does when the store lacks
      the default parameters, the request method or the secret. */
  function Build(action: Bytes, callerParams: Option<Params>, store: Store, nonce: Bytes,
                 timestamp: Bytes, p: Primitives): (r: Result<Params, BuildError>)
    ensures store.requestParameters.None? ==> r == Failure(MissingRequestParameters)
    ensures store.requestParameters.Some? && store.requestMethod.None? ==> r == Failure(MissingRequestMethod)
    ensures store.requestParameters.Some? && store.requestMethod.Some? && store.accessKeySecret.None?
            ==> r == Failure(MissingAccessKeySecret)
    ensures r.Success? <==>
      store.requestParameters.Some? && store.requestMethod.Some? && store.accessKeySecret.Some?
    ensures r.Success? ==>
      var unsigned := Merge(store.requestParameters.value, callerParams,
                            Generated(store.accessKeyId, action, nonce, timestamp));
      && r.value.Keys == unsigned.Keys + {SIGNATURE}
      && r.value[SIGNATURE] == ComputeSignature(p, store.requestMethod.value, store.accessKeySecret.value, unsigned)
      && (forall k | k in unsigned && k != SIGNATURE :: r.value[k] == unsigned[k])
  {
    match store.requestParameters
    case None => Failure(MissingRequestParameters)
    case Some(defaults) =>
      var unsigned := Merge(defaults, callerParams, Generated(store.accessKeyId, action, nonce, timestamp));
      if store.requestMethod.None? then Failure(MissingRequestMethod)
      else if store.accessKeySecret.None? then Failure(MissingAccessKeySecret)
      else
        var sig := ComputeSignature(p, store.requestMethod.value, store.accessKeySecret.value, unsigned);
        Inserted(unsigned, SIGNATURE, sig);
        Success(unsigned[SIGNATURE := sig])
  }

  /** The built map, field by field: generated fields over caller
      parameters over defaults, and a newline-free `Signature`. */
  lemma BuildFields(action: Bytes, callerParams: Option<Params>, store: Store, nonce: Bytes,
                    timestamp: Bytes, p: Primitives)
    requires store.requestParameters.Some? && store.requestMethod.Some? && store.accessKeySecret.Some?
    ensures var r := Build(action, callerParams, store, nonce, timestamp, p);
      && r.Success?
      && r.value[ACCESS_KEY_ID] == store.accessKeyId.GetOr([])
      && r.value[ACTION] == action
      && r.value[SIGNATURE_NONCE] == nonce
      && r.value[TIME_STAMP] == timestamp
      && NEWLINE !in r.value[SIGNATURE]
      && (forall k | k in callerParams.GetOr(map[]) && k !in GENERATED_KEYS && k != SIGNATURE
            :: r.value[k] == callerParams.GetOr(map[])[k])
      && (forall k | k in store.requestParameters.value && k !in callerParams.GetOr(map[])
                     && k !in GENERATED_KEYS && k != SIGNATURE
            :: r.value[k] == store.requestParameters.value[k])
  {
    GeneratedKeysDistinct();
  }

  /** When neither the defaults nor the caller supply `Signature`, the
      signature covers exactly the other fields of the built map. */
  lemma SignatureCoversOtherFields(action: Bytes, callerParams: Option<Params>, store: Store,
                                   nonce: Bytes, timestamp: Bytes, p: Primitives)
    requires store.requestParameters.Some? && store.requestMethod.Some? && store.accessKeySecret.Some?
    requires SIGNATURE !in store.requestParameters.value && SIGNATURE !in callerParams.GetOr(map[])
    ensures var r := Build(action, callerParams, store, nonce, timestamp, p).value;
      var others := r - {SIGNATURE};
      && |others| > 0
      && r[SIGNATURE] == ComputeSignature(p, store.requestMethod.value, store.accessKeySecret.value, others)
  {
    GeneratedKeysDistinct();
    var unsigned := Merge(store.requestParameters.value, callerParams,
                          Generated(store.accessKeyId, action, nonce, timestamp));
    assert SIGNATURE !in unsigned;
    var sig := ComputeSignature(p, store.requestMethod.value, store.accessKeySecret.value, unsigned);
    RemoveAdded(Build(action, callerParams, store, nonce, timestamp, p).value, unsigned, SIGNATURE);
  }
}

=== FILE: signer.dfy ===
/** The string-to-sign and the signature of `compute_signature` and
    `calculate_signature` in `lib/aliyun/ecs.rb`. HMAC-SHA1 and Base64 are
    library primitives outside the model: they enter as function values. */
module Signer {
  import opened Wrappers
  import opened ByteStrings
  import opened Percent
  import opened Canonical

  /** `a&b&c` with separator-free `b` and `c`: where each field sits, and
      how many `&` the whole holds. */
  lemma ThreeFields(a: Bytes, b: Bytes, c: Bytes)
    requires AMP !in b && AMP !in c
    ensures var r := a + [AMP] + b + [AMP] + c;
      && |r| == |a| + |b| + |c| + 2
      && r[..|a|] == a
      && r[|a|..|a| + |b| + 2] == [AMP] + b + [AMP]
      && r[|a| + |b| + 2..] == c
      && Count(r, AMP) == Count(a, AMP) + 2
  {
    CountAbsent(b, AMP);
    CountAbsent(c, AMP);
    CountAppend(a + [AMP] + b + [AMP], c, AMP);
    CountAppend(a + [AMP] + b, [AMP], AMP);
    CountAppend(a + [AMP], b, AMP);
    CountAppend(a, [AMP], AMP);
  }

  /** The encoded path `/` of line 60. */
  function EncodedRoot(): (r: Bytes)
    ensures r == Ascii("%2F")
  {
    EncodeSlash();
    assert Ascii("/") == [SLASH];
    PercentEncode([SLASH])
  }

  /** `METHOD&%2F&enc(cqs)`, line 60: the method, the encoded root path and
      the encoded canonical query string, separated by `&`. */
  function StringToSign(httpMethod: Bytes, m: Params): (r: Bytes)
    ensures |r| >= |httpMethod| + 5 && r[..|httpMethod|] == httpMethod
    ensures r[|httpMethod|..|httpMethod| + 5] == [AMP] + Ascii("%2F") + [AMP]
    ensures Decode(r[|httpMethod| + 5..]) == Some(CanonicalQuery(m))
    ensures Count(r, AMP) == Count(httpMethod, AMP) + 2
  {
    SignedText(httpMethod, CanonicalQuery(m));
    httpMethod + [AMP] + EncodedRoot() + [AMP] + PercentEncode(CanonicalQuery(m))
  }

  /** The layout of `METHOD&%2F&enc(q)` for any query text `q`. */
  lemma SignedText(httpMethod: Bytes, q: Bytes)
    ensures var r := httpMethod + [AMP] + EncodedRoot() + [AMP] + PercentEncode(q);
      && |r| >= |httpMethod| + 5 && r[..|httpMethod|] == httpMethod
      && r[|httpMethod|..|httpMethod| + 5] == [AMP] + Ascii("%2F") + [AMP]
      && Decode(r[|httpMethod| + 5..]) == Some(q)
      && Count(r, AMP) == Count(httpMethod, AMP) + 2
  {
    var query := PercentEncode(q);
    var root := EncodedRoot();
    assert |root| == 3 && AMP !in root;
    EncodedHasNoSeparators(q);
    DecodeIff(query, q);
    ThreeFields(httpMethod, root, query);
  }

  /** For a fixed HTTP method, the string-to-sign determines the parameter
      map: different parameter sets are never signed over the same text. */
  lemma StringToSignInjective(httpMethod: Bytes, m1: Params, m2: Params)
    ensures StringToSign(httpMethod, m1) == StringToSign(httpMethod, m2) <==> m1 == m2
  {
    var s1 := StringToSign(httpMethod, m1);
    var s2 := StringToSign(httpMethod, m2);
    if s1 == s2 {
      assert s1[|httpMethod| + 5..] == s2[|httpMethod| + 5..];
      CanonicalQueryInjective(m1, m2);
    }
  }

  /** With no parameters the canonical query string is empty, and the
      string-to-sign ends right after the encoded root path. */
  lemma StringToSignEmpty(httpMethod: Bytes)
    ensures StringToSign(httpMethod, map[]) == httpMethod + [AMP] + Ascii("%2F") + [AMP]
  {
    var r := StringToSign(httpMethod, map[]);
    assert CanonicalQuery(map[]) == [];
    assert Decode(r[|httpMethod| + 5..]) == Some([]);
    assert r[..|httpMethod| + 5] == r;
  }

  /** The two library primitives the signature is computed with. */
  datatype Primitives = Primitives(hmacSha1: (Bytes, Bytes) -> Bytes, base64: Bytes -> Bytes)

  /** The HMAC key of line 61: the secret followed by `&`. */
  function SigningKey(secret: Bytes): Bytes {
    secret + [AMP]
  }

  /** `calculate_signature`: Base64 of the HMAC-SHA1 digest with every
      newline removed (`Base64.encode64` ends its text, and breaks long
      lines, with a newline; the signature must not contain them). */
  function CalculateSignature(p: Primitives, key: Bytes, message: Bytes): (sig: Bytes)
    ensures NEWLINE !in sig
    ensures var encoded := p.base64(p.hmacSha1(key, message));
      && sig == Without(encoded, NEWLINE)
      && |sig| == |encoded| - Count(encoded, NEWLINE)
      && (forall c | c != NEWLINE :: Count(sig, c) == Count(encoded, c))
      && (NEWLINE !in encoded ==> sig == encoded)
  {
    var encoded := p.base64(p.hmacSha1(key, message));
    GsubDeletes(encoded, NEWLINE);
    assert NEWLINE !in encoded ==> Gsub(encoded, [NEWLINE], []) == encoded by {
      if NEWLINE !in encoded {
        GsubAbsent(encoded, [NEWLINE], []);
      }
    }
    Gsub(encoded, [NEWLINE], [])
  }

  /** `compute_signature`: the signature of the string-to-sign under the
      key `secret&`. */
  function ComputeSignature(p: Primitives, httpMethod: Bytes, secret: Bytes, m: Params): (sig: Bytes)
    ensures NEWLINE !in sig
    ensures sig == Without(p.base64(p.hmacSha1(secret + [AMP], StringToSign(httpMethod, m))), NEWLINE)
  {
    CalculateSignature(p, SigningKey(secret), StringToSign(httpMethod, m))
  }
}

=== FILE: wrappers.dfy ===
/** Optional values and results used across the model: `Option` stands for
    Ruby's `nil`-or-value, `Result` for a value or the exception that aborts a call. */
module Wrappers {

  datatype Option<+T> = None | Some(value: T) {

    /** Ruby's `x || default` when `x` may be `nil`. */
    function GetOr(default: T): T {
      match this
      case Some(v) => v
      case None => default
    }

    /** Ruby's `a || b` on two possibly-`nil` values. */
    function OrElse(other: Option<T>): Option<T> {
      match this
      case Some(_) => this
      case None => other
    }
  }

  datatype Result<+R, +E> = Success(value: R) | Failure(error: E)
}
